=== FILE: README.md ===
# crm-buffer lead-delivery pipeline in Dafny

A model of the core of crm-buffer, a lead-routing gateway. Inbound leads go out to external
systems through driver adapters, and each delivery outcome is recorded against its lead. The
model covers:

- **Lead dispatch listeners** (Bitrix24 driver). The single-lead listener sends the event's data
  through the CRM adapter and classifies the outcome. A raised exception is `retry`, a returned
  call with `isSuccess()` true is `success`, and one with `isSuccess()` false is `failed`. It then
  publishes exactly one `RequestResponse`. Only `\Exception`s are caught: a PHP `\Error` (such as a
  `TypeError`) escapes the handler and nothing is published. The batch listener does the same for
  every lead of a pack, in order, and skips leads whose `needIToProcess(driver)` is false. The
  batch stops at the first lead whose `needIToProcess` raises (it sits outside the `try`) or
  whose attempt lets an `\Error` escape.
- **RequestResponse listener**. It forwards each outcome to the request repository's `setStatus`,
  with the response JSON-encoded.
- **API authentication gate**. It checks the `token` and `sig` parameters (PHP `empty()` semantics),
  looks up the application and validates the signature. The result is unauthorized, bad request,
  or a pass: the two parameters are stripped and the application is attached.
- **Pagination headers** of list responses.
- **PartnerBox integration service**. Its control logic covers memoised session and tracker
  construction, `track`, `sendEvent` and `setTransactionStatus`.

The collaborators whose answers steer the control flow are parameters of the operation: the
adapter, the `needIToProcess` gate, `json_encode`, the application lookup, the signature
validator, the next middleware, and the tracking-library calls the PartnerBox service branches on
(login, `track`, `saveCookies`, `register`, `getTrackerResponse`, and the transaction query, load
and save). Apart from `json_encode`, each of them may raise, and an operation's contract holds for
every possible behaviour of those parameters. Calls that only configure a library object, and
event publication, are taken not to raise; the "Left out" section names each of them. The adapter is a function from
the payloads already sent while handling the same event, plus the current payload, to the answers
of `sendLead`, `getMessages` and `isSuccess`. Any of the three may raise, either an `\Exception` or
an `\Error`. Events published with
`event(...)` become a returned trace of `RequestResponse` records. Adapter calls become a trace of
probes.

Modules: `Wrappers` (optional values, PHP throwables split into `\Exception` and `\Error`,
raised-or-returned answers), `Php` (PHP `empty()`), `Leads` (shared
lead and event types and the classification of one attempt), `NewLeadListener`,
`NewLeadPackListener`, `RequestResponseListener`, `ApiAuthenticate`, `Pagination`, `PartnerBox`.

The request store in `RequestResponseListener` is an assumption. `RequestRepository::setStatus` is
not part of this model. The store assumes it upserts one row per (lead id, driver) key, so the
last write wins. `LastWriteWins`, `UntouchedKeys` and `RetryThenSuccess` hold under that assumption
only.

## Model

| member | source | states |
|---|---|---|
| Leads.AttemptProbes | app/Drivers/Bitrix24/Listeners/NewLeadListener.php:34-36 | One attempt calls `sendLead(payload)` exactly once, and first. `getMessages` is called only if it returned, then `isSuccess` only if both returned, in that order |
| Leads.Deliver | app/Drivers/Bitrix24/Listeners/NewLeadListener.php:33-40 | The attempt's calls are those of `AttemptProbes`. If the first raise is a PHP `\Error`, it escapes uncaught, and it is that very error. Otherwise the status and message satisfy the classification: `retry` iff some call raised, with that exception's message; otherwise `success`/`failed` per `isSuccess()`, with `getMessages()` as the message |
| Leads.ClassificationIsFunctional | app/Drivers/Bitrix24/Listeners/NewLeadListener.php:33-40 | The classification fixes status and message uniquely, so a returned `isSuccess() == false` is `failed` and never `retry` |
| NewLeadListener.Handle | app/Drivers/Bitrix24/Listeners/NewLeadListener.php:30-42 | Unless a PHP `\Error` escapes the `catch (\Exception)`, exactly one `RequestResponse` is emitted. It carries the event id and the driver name, and its status and message follow the classification. When an `\Error` escapes, nothing is emitted and the handler throws it: the throwable of the first of the three calls that raised. The only `sendLead` call gets the event's data unchanged |
| NewLeadListener.RaisedSendIsRetry | app/Drivers/Bitrix24/Listeners/NewLeadListener.php:37-41 | A `sendLead` raising an `\Exception` yields exactly one event, `retry`, with the exception's message |
| NewLeadListener.RaisedErrorEscapes | app/Drivers/Bitrix24/Listeners/NewLeadListener.php:33-41 | A `sendLead` raising a PHP `\Error` escapes the handler after that one call: no event is emitted |
| NewLeadListener.RejectedIsFailed | app/Drivers/Bitrix24/Listeners/NewLeadListener.php:34-36 | A completed attempt with `isSuccess()` false is `failed` |
| NewLeadPackListener.Handle | app/Drivers/Bitrix24/Listeners/NewLeadPackListener.php:31-48 | Stated through the predicate `Ends`. The walk stops at the first lead whose `needIToProcess` raises or whose attempt lets an `\Error` escape; that throwable is thrown. Every lead before it is handled. Events are exactly one per lead the gate admitted before the stop, in batch order, each with its own lead's id and the driver name. Each is classified like the single-lead listener, whatever `\Exception`s earlier leads raised. The `sendLead` payloads are the admitted leads' bodies, in order, plus the escaping lead's body |
| NewLeadPackListener.HandleLead | app/Drivers/Bitrix24/Listeners/NewLeadPackListener.php:35-46 | One lead of the walk: either the walk goes on past it with that lead's calls and event appended (none when the gate refused it), or it stops there, having thrown what the gate or the attempt's `\Error` raised |
| NewLeadPackListener.EligibleMembers | app/Drivers/Bitrix24/Listeners/NewLeadPackListener.php:34-36 | A lead is processed iff it is in the batch and `needIToProcess(driver)` returns true; a refused lead gets no call and no event |
| NewLeadPackListener.EligibleAppend | app/Drivers/Bitrix24/Listeners/NewLeadPackListener.php:34-36 | Gating keeps batch order: the processed leads of a concatenation are those of its parts, concatenated |
| NewLeadPackListener.PublishesStep | app/Drivers/Bitrix24/Listeners/NewLeadPackListener.php:37-45 | Processing one more admitted lead appends exactly that lead's event and its adapter calls and keeps all earlier events |
| NewLeadPackListener.SingleEligibleMatchesListener | app/Drivers/Bitrix24/Listeners/NewLeadPackListener.php:37-45 | When no `\Error` escapes, a batch whose only admitted lead is L emits exactly what the single-lead listener emits for L |
| NewLeadPackListener.OutcomesDoNotShiftEvents | app/Drivers/Bitrix24/Listeners/NewLeadPackListener.php:37-45 | Failure isolation among `\Exception`s: when neither of two adapters lets an `\Error` escape (both walks publish over every admitted lead), the same leads get events at the same positions, whatever exceptions either adapter raised |
| RequestResponseListener.Handle | app/Listeners/RequestResponseListener.php:26-34 | One `setStatus` call per event. Id, status and system pass through unchanged, and the message is always the encoded response, text included |
| RequestResponseListener.HandleAll | app/Listeners/RequestResponseListener.php:26-34 | A sequence of events causes one `setStatus` call per event, in event order |
| RequestResponseListener.LastWriteWins | app/Listeners/RequestResponseListener.php:28-33 | Under the assumed upsert, a key's row holds the status, encoded response and system of the last event for that key |
| RequestResponseListener.UntouchedKeys | app/Listeners/RequestResponseListener.php:28-33 | Under the assumed upsert, a key no event mentions keeps its row, or stays absent (pending) |
| RequestResponseListener.RetryThenSuccess | app/Listeners/RequestResponseListener.php:28-33 | `retry` then `success` for the same (id, driver) leaves the request `success` |
| ApiAuthenticate.Handle | app/Http/Middleware/ApiAuthenticate.php:51-75 | Unauthorized iff token or sig is empty (`""`, `"0"` or missing) or the lookup returns no application for that client id. The lookup runs only when both are non-empty, and the validator only after an application was found. A throwable from either escapes the gate uncaught, and it is that call's throwable. Bad request iff the validator returns false for the parameters minus `sig`, the application's secret and the signature. On a pass the downstream parameters are the input minus exactly `token` and `sig`, every other value unchanged; the attached application is the resolved one; `next` answers for that request |
| ApiAuthenticate.ValidatorSeesClientId | app/Http/Middleware/ApiAuthenticate.php:60-65 | The signed parameter set includes `token` with its original value |
| ApiAuthenticate.PassedRequestIsNotReusable | app/Http/Middleware/ApiAuthenticate.php:53-74 | The parameters a passed request forwards are refused as unauthorized if presented again: every request is verified on its own |
| ApiAuthenticate.ZeroTokenIsUnauthorized | app/Http/Middleware/ApiAuthenticate.php:53-58 | A token equal to `"0"` is empty for PHP, so the request is unauthorized whatever the lookup would answer or raise: the lookup is never consulted |
| Pagination.FloorDiv | app/Http/Controllers/Controller.php:51 | The page index `q` satisfies `q*b <= a < (q+1)*b` |
| Pagination.CeilDiv | app/Http/Controllers/Controller.php:46 | The page count `q` satisfies `(q-1)*b < a <= q*b` |
| Pagination.ListHeaders | app/Http/Controllers/Controller.php:40-56 | There are no headers iff `cnt` is null or the effective limit (10 if null) is not positive. Otherwise exactly the four headers limit, total, pages and page exist. They hold the effective limit, `cnt`, the least page count covering `cnt`, and the page holding `offset` (null offset counts as 0) |
| Pagination.ExactPages | app/Http/Controllers/Controller.php:46-51 | `n` full pages report `n` pages, and offset `p*limit` reports page `p` |
| PartnerBox.CreateSession | app/Drivers/PartnerBox/Services/PartnerBoxIntegrationService.php:63-73 | A stored session is returned with no library call. Otherwise the session is stored before the login. A refused login raises an exception of class `WrongCredentialsException`, and a throwable from login propagates |
| PartnerBox.FailedLoginIsNotRetried | app/Drivers/PartnerBox/Services/PartnerBoxIntegrationService.php:65-72 | After a refused login the next `createSession` returns the stored session without logging in again |
| PartnerBox.CreateClickTracker | app/Drivers/PartnerBox/Services/PartnerBoxIntegrationService.php:81-92 | The tracker is built once, on the session, with the account id. It gets a visitor id iff the configured one is non-empty. A session failure leaves no tracker but keeps the session |
| PartnerBox.CreateSaleTracker | app/Drivers/PartnerBox/Services/PartnerBoxIntegrationService.php:100-109 | The tracker is built once, without a session or login, and always gets the configured visitor id |
| PartnerBox.SaleTrackerBuiltOnce | app/Drivers/PartnerBox/Services/PartnerBoxIntegrationService.php:102-108 | A second `createSaleTracker` returns the same tracker, changes nothing and makes no call |
| PartnerBox.EmptyVisitorOnlyOnSales | app/Drivers/PartnerBox/Services/PartnerBoxIntegrationService.php:86-105 | An empty visitor id is not set on a new click tracker but is set on the sale tracker |
| PartnerBox.TrackVisit | app/Drivers/PartnerBox/Services/PartnerBoxIntegrationService.php:116-126 | Returns true iff the tracker was obtained and `track()` and `saveCookies()` both returned. Every `\Exception` on the way gives false. Only a PHP `\Error`, which the `catch` does not catch, escapes, and it is the first one raised. `saveCookies` is called only after `track()` returned |
| PartnerBox.TrackAfterRefusedLogin | app/Drivers/PartnerBox/Services/PartnerBoxIntegrationService.php:116-125 | A `track()` whose login is refused returns false. The next `track()` does not log in, and it returns true iff `track()` and `saveCookies()` return |
| PartnerBox.CatchAsFalse | app/Drivers/PartnerBox/Services/PartnerBoxIntegrationService.php:123-124 | `catch (\Exception) { return false; }`: an exception becomes false, and an `\Error` passes through unchanged |
| PartnerBox.SendEvent | app/Drivers/PartnerBox/Services/PartnerBoxIntegrationService.php:139-154 | Exactly `min(5, |data|)` data slots are set, slot k to `data[k-1]` in increasing k, and later values are ignored. An exception from `register()` propagates; otherwise the tracker's response is returned |
| PartnerBox.SetTransactionStatus | app/Drivers/PartnerBox/Services/PartnerBoxIntegrationService.php:164-187 | Uses the stored session, possibly none, and never creates one. True iff a record is found, loads and saves. `setStatus` is called iff a record was found and loaded. Anything the grid query raises propagates, as does a PHP `\Error` from `load()` or `save()`; every other failure gives false |

## Left out

- The Laravel event dispatcher and subscriber registration: publishing is modelled as appending to the returned trace of events.
- `RequestRepository::setStatus` persistence is not part of this model. The upsert keyed by (id, system) in `RequestResponseListener.SetStatus` is an assumption, not a proved fact.
- `RequestValidation::validate` (the signing algorithm) and `ApplicationRepository::getByClientId` (a database query) are oracle parameters of `ApiAuthenticate.Handle`. What they answer is not modelled, but that they may raise is.
- `ApplicationRepository::setNewKeys` / `generateKeys`: they depend on the clock, randomness and MD5.
- `BaseRepository`: query-builder plumbing with no logic of its own.
- `Controller::response`: JSON/HTTP response construction.
- The browser script `public/js/app/leads.js`, the interfaces and the repository-accessor trait: UI or plumbing with no logic.
- All `Gpf_*` / `Pap_*` library behaviour (network, cookies, grid queries): each call the service branches on is an oracle answer passed to the operation. Library constructors and `setTransid` are taken not to raise.
- `PartnerBox.CreateClickTracker`: `setAccountId` and `setVisitorId` are taken not to raise. A raise there would escape after the tracker was memoised, leaving a half-configured tracker for later calls.
- `PartnerBox.CreateSaleTracker`: `setAccountId` and `setVisitorId` are taken not to raise. Like the click tracker's, they run after the tracker was memoised, so a raise there would leave a half-configured sale tracker for later calls.
- `RequestResponseListener.Handle`: `json_encode` is taken to return a string. The `false` it returns on a failed encoding is not modelled.
- `PartnerBox.SendEvent`: `createAction`, `setProductId`, `setOrderId` and the `setDataN` setters are taken not to raise. One that raised would escape `sendEvent` before `track()`.
- `PartnerBox.SetTransactionStatus`: the row read `$rec->get('id')` and `$sale->setStatus()` are taken not to raise. They sit inside the `try`, so an `\Exception` from them would answer false and an `\Error` would escape.
- `NewLeadListener.Handle`, `NewLeadPackListener.Handle`: `event(...)` is outside the `try`, and publication is taken not to raise. A subscriber that raised, such as the repository's `setStatus`, would abort the handler, and in a batch it would skip the remaining leads.
- Getters and setters of `PartnerBoxIntegrationService`: plain field access, modelled by the `Config` record.
- `DriverProvider::DRIVER_NAME` is not part of this model. The listeners take the driver name as a parameter and the contracts say it is the one emitted.
- `NewLeadPackListener.Handle`: `needIToProcess` is an oracle that does not see responses emitted earlier in the same batch. In the application those responses are stored synchronously, and a persisted `needIToProcess` could observe them. What it raises, and the batch abort that follows, are modelled.
- `ApiAuthenticate.Handle`: the request's parameter bags (attributes, query string, body) are modelled as one flat map of strings. Symfony's lookup order across the bags is not modelled. Nor is the possibility that `$request->replace(...)` rewrites only the input bag, which would let a `token`/`sig` sent in the query string of a POST reach the next handler. Array-valued `token` or `sig` parameters and the HTTP exception objects are not modelled either.
- `Pagination.ListHeaders`: PHP computes `ceil`/`floor` on floats. The model uses exact integer division, so precision loss on totals beyond 2^53 and 64-bit integer overflow are not modelled.
- `PartnerBox.SendEvent`: product and order ids are modelled as strings, and `getTrackerResponse()` is a single oracle answer.
- Cross-request concurrency: each handler is one sequential step.

=== FILE: api_authenticate.dfy ===
/** The request-signing gate in front of the API: a one-step decision over the request's
    parameters. */
module ApiAuthenticate {
  import opened Wrappers
  import opened Php

  /** Name of the parameter carrying the signature. */
  const ParamSignature := "sig"

  /** Name of the parameter carrying the client id. */
  const ParamClientId := "token"

  /** The request's input parameters. */
  type Params = map<string, string>

  datatype Application = Application(clientId: string, clientSecret: string)

  /** `ApplicationRepository::getByClientId`, as an oracle: a database query, which may raise. */
  type Lookup = string -> Answer<Option<Application>>

  /** `RequestValidation::validate(params, secret, signature)`, as an oracle that may raise. */
  type Validator = (Params, string, string) -> Answer<bool>

  /** The gate's decision. `Passed` carries the request handed to the next handler (its
      parameters and its `application` attribute) and what that handler answered. `Escaped` is a
      throwable from the lookup or the validator, which the gate does not catch. */
  datatype Decision<R> =
    | Unauthorized
    | BadRequest
    | Passed(params: Params, application: Application, response: R)
    | Escaped(error: Throwable)

  /** `$request->get(key)`: the value, or `null` when the parameter is missing. */
  function Get(params: Params, key: string): Option<string> {
    if key in params then Some(params[key]) else None
  }

  /** The decision for a request with parameters `params`. The lookup runs only when both
      parameters are non-empty and the validator only once an application was found; `next` is
      called only on `Passed`, with the token and signature stripped and the application attached. */
  function Handle<R>(params: Params, lookup: Lookup, validate: Validator, next: (Params, Application) -> R): (d: Decision<R>)
    ensures d.Unauthorized? <==>
      Blank(Get(params, ParamClientId)) || Blank(Get(params, ParamSignature)) || lookup(params[ParamClientId]) == Returned(None)
    ensures d.Escaped? <==>
      && !Blank(Get(params, ParamClientId)) && !Blank(Get(params, ParamSignature))
      && (|| lookup(params[ParamClientId]).Raised?
          || (&& lookup(params[ParamClientId]).Returned? && lookup(params[ParamClientId]).value.Some?
              && validate(params - {ParamSignature}, lookup(params[ParamClientId]).value.value.clientSecret, params[ParamSignature]).Raised?))
    ensures d.Escaped? && lookup(params[ParamClientId]).Raised? ==> d.error == lookup(params[ParamClientId]).error
    ensures d.Escaped? && lookup(params[ParamClientId]).Returned? ==>
      d.error == validate(params - {ParamSignature}, lookup(params[ParamClientId]).value.value.clientSecret, params[ParamSignature]).error
    ensures d.BadRequest? <==>
      && !Blank(Get(params, ParamClientId)) && !Blank(Get(params, ParamSignature))
      && lookup(params[ParamClientId]).Returned? && lookup(params[ParamClientId]).value.Some?
      && validate(params - {ParamSignature}, lookup(params[ParamClientId]).value.value.clientSecret, params[ParamSignature]) == Returned(false)
    ensures d.Passed? ==>
      && lookup(params[ParamClientId]) == Returned(Some(d.application))
      && d.params.Keys == params.Keys - {ParamClientId, ParamSignature}
      && (forall k :: k in d.params ==> d.params[k] == params[k])
      && d.response == next(d.params, d.application)
  {
    var clientId := Get(params, ParamClientId);
    var signature := Get(params, ParamSignature);
    if Blank(clientId) || Blank(signature) then
      Unauthorized
    else
      match lookup(clientId.value)
      case Raised(e) => Escaped(e)
      case Returned(None) => Unauthorized
      case Returned(Some(application)) =>
        match validate(params - {ParamSignature}, application.clientSecret, signature.value)
        case Raised(e) => Escaped(e)
        case Returned(false) => BadRequest
        case Returned(true) =>
          var downstream := params - {ParamClientId, ParamSignature};
          Passed(downstream, application, next(downstream, application))
  }

  /** The validator signs over everything except the signature, so the client id is covered. */
  lemma ValidatorSeesClientId<R>(params: Params, lookup: Lookup, validate: Validator, next: (Params, Application) -> R)
    requires !Handle(params, lookup, validate, next).Unauthorized?
    ensures ParamClientId in params - {ParamSignature}
    ensures (params - {ParamSignature})[ParamClientId] == params[ParamClientId]
  {
  }

  /** A request that passed cannot pass the gate again: its token is gone, so every request
      is verified on its own. */
  lemma {:induction false} PassedRequestIsNotReusable<R>(params: Params, lookup: Lookup, validate: Validator, next: (Params, Application) -> R)
    requires Handle(params, lookup, validate, next).Passed?
    ensures Handle(Handle(params, lookup, validate, next).params, lookup, validate, next).Unauthorized?
  {
    var d := Handle(params, lookup, validate, next);
    assert ParamClientId !in d.params;
  }

  /** An empty client id in PHP's sense, `"0"` included, is refused before any lookup. */
  lemma ZeroTokenIsUnauthorized<R>(params: Params, lookup: Lookup, validate: Validator, next: (Params, Application) -> R)
    requires Get(params, ParamClientId) == Some("0")
    ensures Handle(params, lookup, validate, next) == Unauthorized
  {
  }
}

=== FILE: leads.dfy ===
/** Leads, the events that carry them, and how one delivery attempt through a
    CRM driver adapter is classified into a request status. */
module Leads {
  import opened Wrappers

  type LeadId = nat

  /** The lead's field map handed to the adapter unchanged. */
  type Payload = map<string, string>

  /** Delivery status of a (lead, driver) request; `pending` is implicit before the first response. */
  datatype Status = Success | Failed | Retry

  datatype Lead = Lead(id: LeadId, body: Payload)

  /** The single-lead ingestion event. */
  datatype NewLead = NewLead(id: LeadId, data: Payload)

  /** The outcome message: the listeners always emit text, other publishers may emit structured data. */
  datatype Response = Text(text: string) | Structured(fields: map<string, string>)

  /** The outcome event closing the delivery loop for one (lead, driver) pair. */
  datatype RequestResponse = RequestResponse(id: LeadId, response: Response, system: string, status: Status)

  /** How the adapter answers the three calls of one attempt: `sendLead`, then `getMessages`,
      then `isSuccess`. A later answer is only consulted when the earlier calls returned. */
  datatype Attempt = Attempt(send: Answer<()>, messages: Answer<string>, success: Answer<bool>)

  /** The adapter as an oracle: its answers for a `sendLead(payload)` call, given the payloads
      it was sent earlier while handling the same event. */
  type Adapter = (seq<Payload>, Payload) -> Attempt

  /** A call made on the adapter. */
  datatype Probe = SendLead(payload: Payload) | GetMessages | IsSuccess

  /** The status and message a listener publishes for one attempt. */
  datatype Classified = Classified(status: Status, message: string)

  /** One attempt: the adapter calls made, and either its classification or the PHP `\Error`
      that escaped the listener's `catch (\Exception)`. */
  datatype Delivery = Delivery(probes: seq<Probe>, outcome: Answer<Classified>)

  /** The payloads of the `sendLead` calls in a trace, in call order. */
  function Sends(probes: seq<Probe>): seq<Payload> {
    if |probes| == 0 then []
    else (if probes[0].SendLead? then [probes[0].payload] else []) + Sends(probes[1..])
  }

  lemma {:induction false} SendsAppend(p: seq<Probe>, q: seq<Probe>)
    ensures Sends(p + q) == Sends(p) + Sends(q)
  {
    if |p| == 0 {
      assert p + q == q;
    } else {
      var head := if p[0].SendLead? then [p[0].payload] else [];
      assert (p + q)[0] == p[0];
      assert (p + q)[1..] == p[1..] + q;
      assert Sends(p + q) == head + Sends(p[1..] + q);
      SendsAppend(p[1..], q);
      assert Sends(p) == head + Sends(p[1..]);
    }
  }

  /** The classification the listeners promise: an attempt any of whose calls raised an
      `\Exception` is `retry` with that exception's message; one that returned throughout is
      `success` or `failed` according to `isSuccess()`, with `getMessages()` as the message. */
  predicate Classifies(a: Attempt, status: Status, message: string) {
    && (status == Retry <==> a.send.Raised? || a.messages.Raised? || a.success.Raised?)
    && (status == Success <==> a.send.Returned? && a.messages.Returned? && a.success == Returned(true))
    && (status == Failed <==> a.send.Returned? && a.messages.Returned? && a.success == Returned(false))
    && (a.send.Raised? ==> message == a.send.error.message)
    && (a.send.Returned? && a.messages.Raised? ==> message == a.messages.error.message)
    && (a.send.Returned? && a.messages.Returned? && a.success.Raised? ==> message == a.success.error.message)
    && (a.send.Returned? && a.messages.Returned? && a.success.Returned? ==> message == a.messages.value)
  }

  /** The first call of the attempt that raised, raised a PHP `\Error`: it is not an `\Exception`,
      so the listeners' `catch` lets it through. */
  predicate Escapes(a: Attempt) {
    || (a.send.Raised? && a.send.error.Error?)
    || (a.send.Returned? && a.messages.Raised? && a.messages.error.Error?)
    || (a.send.Returned? && a.messages.Returned? && a.success.Raised? && a.success.error.Error?)
  }

  /** At most one (status, message) pair satisfies the classification. */
  lemma ClassificationIsFunctional(a: Attempt, s1: Status, m1: string, s2: Status, m2: string)
    requires Classifies(a, s1, m1) && Classifies(a, s2, m2)
    ensures s1 == s2 && m1 == m2
  {
  }

  /** The body of the listeners' `try`: each call that raises skips the rest. */
  function TryBlock(a: Attempt): Answer<(string, Status)> {
    var sent :- a.send;
    var message :- a.messages;
    var ok :- a.success;
    Returned((message, if ok then Success else Failed))
  }

  /** The adapter calls of one attempt: `sendLead` first, then `getMessages` if it returned, then
      `isSuccess` if both returned. */
  function AttemptProbes(payload: Payload, a: Attempt): (probes: seq<Probe>)
    ensures |probes| > 0 && probes[0] == SendLead(payload)
    ensures Sends(probes) == [payload]
    ensures GetMessages in probes <==> a.send.Returned?
    ensures IsSuccess in probes <==> a.send.Returned? && a.messages.Returned?
    ensures GetMessages !in probes ==> probes == [SendLead(payload)]
    ensures GetMessages in probes && IsSuccess !in probes ==> probes == [SendLead(payload), GetMessages]
    ensures IsSuccess in probes ==> probes == [SendLead(payload), GetMessages, IsSuccess]
  {
    var queries := (if a.send.Returned? then [GetMessages] else [])
      + (if a.send.Returned? && a.messages.Returned? then [IsSuccess] else []);
    SendsAppend([SendLead(payload)], queries);
    SendsOfAdapterQueries(queries);
    [SendLead(payload)] + queries
  }

  /** The throwable of the first call of the attempt that raised. */
  function FirstRaise(a: Attempt): Throwable
    requires a.send.Raised? || a.messages.Raised? || a.success.Raised?
  {
    if a.send.Raised? then a.send.error else if a.messages.Raised? then a.messages.error else a.success.error
  }

  /** One delivery attempt of `payload`: the `try`/`catch (\Exception)` of the listeners, turning
      a raised exception into `retry` with the exception's message and letting an `\Error` escape. */
  function Deliver(payload: Payload, a: Attempt): (d: Delivery)
    ensures d.outcome.Raised? <==> Escapes(a)
    ensures d.outcome.Raised? ==> d.outcome.error == FirstRaise(a)
    ensures d.outcome.Returned? ==> Classifies(a, d.outcome.value.status, d.outcome.value.message)
    ensures d.probes == AttemptProbes(payload, a)
  {
    var probes := AttemptProbes(payload, a);
    match TryBlock(a)
    case Raised(e) =>
      if e.Exception? then Delivery(probes, Returned(Classified(Retry, e.message)))
      else Delivery(probes, Raised(e))
    case Returned(result) => Delivery(probes, Returned(Classified(result.1, result.0)))
  }

  /** Calls other than `sendLead` add nothing to the send trace. */
  lemma {:induction false} SendsOfAdapterQueries(q: seq<Probe>)
    requires forall i :: 0 <= i < |q| ==> !q[i].SendLead?
    ensures Sends(q) == []
  {
    if |q| > 0 {
      SendsOfAdapterQueries(q[1..]);
    }
  }

  /** The `RequestResponse` a listener publishes for lead `id` after classification `c`. */
  function Respond(driver: string, id: LeadId, c: Classified): RequestResponse {
    RequestResponse(id, Text(c.message), driver, c.status)
  }
}

=== FILE: new_lead_listener.dfy ===
/** The CRM driver's listener for a single `NewLead` event. */
module NewLeadListener {
  import opened Wrappers
  import opened Leads

  /** What handling an event did: the adapter calls made, the events published, in order, and
      the throwable that escaped the handler, if any. */
  datatype Handled = Handled(probes: seq<Probe>, emitted: seq<RequestResponse>, thrown: Option<Throwable>)

  /** Sends the event's data once and classifies the outcome. Unless a PHP `\Error` escapes the
      `catch (\Exception)`, exactly one `RequestResponse` is published, carrying the event id and
      the driver name; when one escapes, nothing is published. */
  function Handle(driver: string, adapter: Adapter, event: NewLead): (r: Handled)
    ensures r.thrown.Some? <==> Escapes(adapter([], event.data))
    ensures r.thrown.Some? ==> r.emitted == [] && r.thrown.value == FirstRaise(adapter([], event.data))
    ensures r.thrown.None? ==>
      && |r.emitted| == 1
      && r.emitted[0].id == event.id && r.emitted[0].system == driver
      && r.emitted[0].response.Text?
      && Classifies(adapter([], event.data), r.emitted[0].status, r.emitted[0].response.text)
    ensures Sends(r.probes) == [event.data]
    ensures r.probes[0] == SendLead(event.data)
  {
    var d := Deliver(event.data, adapter([], event.data));
    match d.outcome
    case Raised(e) => Handled(d.probes, [], Some(e))
    case Returned(c) => Handled(d.probes, [Respond(driver, event.id, c)], None)
  }

  /** A `sendLead` that raises an exception is `retry` with its message, never a silent drop. */
  lemma RaisedSendIsRetry(driver: string, adapter: Adapter, event: NewLead)
    requires adapter([], event.data).send.Raised? && adapter([], event.data).send.error.Exception?
    ensures Handle(driver, adapter, event).emitted
         == [RequestResponse(event.id, Text(adapter([], event.data).send.error.message), driver, Retry)]
  {
    var r := Handle(driver, adapter, event);
    assert r.emitted[0].response == Text(r.emitted[0].response.text);
  }

  /** A `sendLead` that raises a PHP `\Error` escapes the handler: no event is published. */
  lemma RaisedErrorEscapes(driver: string, adapter: Adapter, event: NewLead)
    requires adapter([], event.data).send.Raised? && adapter([], event.data).send.error.Error?
    ensures Handle(driver, adapter, event) == Handled([SendLead(event.data)], [], Some(adapter([], event.data).send.error))
  {
  }

  /** An attempt whose calls all returned and that reports no success is `failed`, never `retry`. */
  lemma RejectedIsFailed(driver: string, adapter: Adapter, event: NewLead)
    requires adapter([], event.data).send.Returned? && adapter([], event.data).messages.Returned?
    requires adapter([], event.data).success == Returned(false)
    ensures Handle(driver, adapter, event).emitted[0].status == Failed
  {
  }
}

=== FILE: new_lead_pack_listener.dfy ===
/** The CRM driver's listener for a `NewLeadPack` event: an ordered batch of leads. */
module NewLeadPackListener {
  import opened Wrappers
  import opened Leads
  import opened NewLeadListener

  /** The per-lead `needIToProcess(driver)`, as an oracle. It is called outside the `try`, so
      whatever it raises escapes the handler. */
  type Gate = (Lead, string) -> Answer<bool>

  /** The leads of the batch the gate admits for `driver`, in batch order. */
  function Eligible(leads: seq<Lead>, need: Gate, driver: string): seq<Lead> {
    if |leads| == 0 then []
    else
      var last := leads[|leads| - 1];
      Eligible(leads[..|leads| - 1], need, driver) + (if need(last, driver) == Returned(true) then [last] else [])
  }

  function Bodies(leads: seq<Lead>): (bodies: seq<Payload>)
    ensures |bodies| == |leads|
    ensures forall i :: 0 <= i < |leads| ==> bodies[i] == leads[i].body
  {
    seq(|leads|, i requires 0 <= i < |leads| => leads[i].body)
  }

  /** Exactly the admitted leads survive the gate. */
  lemma {:induction false} EligibleMembers(leads: seq<Lead>, need: Gate, driver: string, lead: Lead)
    ensures lead in Eligible(leads, need, driver) <==> lead in leads && need(lead, driver) == Returned(true)
  {
    if |leads| > 0 {
      var init := leads[..|leads| - 1];
      EligibleMembers(init, need, driver, lead);
      assert leads == init + [leads[|leads| - 1]];
    }
  }

  /** Batch order is kept: the eligible leads are the batch with the refused ones removed,
      so gating a concatenation gates each part. */
  lemma {:induction false} EligibleAppend(a: seq<Lead>, b: seq<Lead>, need: Gate, driver: string)
    ensures Eligible(a + b, need, driver) == Eligible(a, need, driver) + Eligible(b, need, driver)
  {
    if |b| > 0 {
      var init := b[..|b| - 1];
      assert (a + b)[..|a + b| - 1] == a + init;
      EligibleAppend(a, init, need, driver);
    } else {
      assert a + b == a;
    }
  }

  /** Handling `lead`, after the payloads `history` were sent, ends the batch with a throwable:
      the gate raised, or the lead was admitted and an `\Error` escaped its attempt. */
  predicate Aborts(driver: string, need: Gate, adapter: Adapter, lead: Lead, history: seq<Payload>) {
    need(lead, driver).Raised? || (need(lead, driver) == Returned(true) && Escapes(adapter(history, lead.body)))
  }

  /** `emitted` is what handling the eligible leads `todo` publishes: one classified event per
      lead, in order. */
  predicate Publishes(driver: string, adapter: Adapter, todo: seq<Lead>, emitted: seq<RequestResponse>) {
    && |emitted| == |todo|
    && forall i :: 0 <= i < |todo| ==>
         && emitted[i].id == todo[i].id
         && emitted[i].system == driver
         && emitted[i].response.Text?
         && Classifies(adapter(Bodies(todo[..i]), todo[i].body), emitted[i].status, emitted[i].response.text)
  }

  /** Handling one more eligible lead extends what the batch has published by that lead's event. */
  lemma PublishesStep(driver: string, adapter: Adapter, todo: seq<Lead>, emitted: seq<RequestResponse>, lead: Lead, c: Classified)
    requires Publishes(driver, adapter, todo, emitted)
    requires Classifies(adapter(Bodies(todo), lead.body), c.status, c.message)
    ensures Publishes(driver, adapter, todo + [lead], emitted + [Respond(driver, lead.id, c)])
  {
    var todo' := todo + [lead];
    var emitted' := emitted + [Respond(driver, lead.id, c)];
    assert todo'[..|todo|] == todo;
    forall i | 0 <= i < |todo'|
      ensures Classifies(adapter(Bodies(todo'[..i]), todo'[i].body), emitted'[i].status, emitted'[i].response.text)
    {
      if i < |todo| {
        assert todo'[..i] == todo[..i];
        assert emitted'[i] == emitted[i];
      }
    }
  }

  /** The loop state after the first `k` leads: none of them aborted, and the events and sends
      are those of the eligible leads among them. */
  predicate Progress(driver: string, need: Gate, adapter: Adapter, leads: seq<Lead>, k: int,
                     probes: seq<Probe>, emitted: seq<RequestResponse>) {
    && 0 <= k <= |leads|
    && (forall j :: 0 <= j < k ==> !Aborts(driver, need, adapter, leads[j], Bodies(Eligible(leads[..j], need, driver))))
    && Publishes(driver, adapter, Eligible(leads[..k], need, driver), emitted)
    && Sends(probes) == Bodies(Eligible(leads[..k], need, driver))
  }

  /** A lead the gate refuses changes nothing but the position. */
  lemma RefusedStep(driver: string, need: Gate, adapter: Adapter, leads: seq<Lead>, k: int,
                    probes: seq<Probe>, emitted: seq<RequestResponse>)
    requires Progress(driver, need, adapter, leads, k, probes, emitted)
    requires k < |leads| && need(leads[k], driver) == Returned(false)
    ensures Progress(driver, need, adapter, leads, k + 1, probes, emitted)
  {
    assert leads[..k + 1][..k] == leads[..k];
    assert Eligible(leads[..k + 1], need, driver) == Eligible(leads[..k], need, driver) + [];
    assert Eligible(leads[..k], need, driver) + [] == Eligible(leads[..k], need, driver);
  }

  /** The calls of an admitted lead's attempt extend the sends by exactly that lead's body. */
  lemma AdmittedSends(driver: string, need: Gate, leads: seq<Lead>, k: int, probes: seq<Probe>, more: seq<Probe>)
    requires 0 <= k < |leads| && need(leads[k], driver) == Returned(true)
    requires Sends(probes) == Bodies(Eligible(leads[..k], need, driver)) && Sends(more) == [leads[k].body]
    ensures Sends(probes + more) == Bodies(Eligible(leads[..k + 1], need, driver))
  {
    var todo := Eligible(leads[..k], need, driver);
    assert leads[..k + 1][..k] == leads[..k];
    assert Eligible(leads[..k + 1], need, driver) == todo + [leads[k]];
    SendsAppend(probes, more);
    assert Bodies(todo + [leads[k]]) == Bodies(todo) + [leads[k].body];
  }

  /** An admitted lead whose attempt was classified adds its calls and its one event. */
  lemma AdmittedStep(driver: string, need: Gate, adapter: Adapter, leads: seq<Lead>, k: int,
                     probes: seq<Probe>, emitted: seq<RequestResponse>, d: Delivery)
    requires Progress(driver, need, adapter, leads, k, probes, emitted)
    requires k < |leads| && need(leads[k], driver) == Returned(true)
    requires d == Deliver(leads[k].body, adapter(Sends(probes), leads[k].body)) && d.outcome.Returned?
    ensures Progress(driver, need, adapter, leads, k + 1, probes + d.probes,
                     emitted + [Respond(driver, leads[k].id, d.outcome.value)])
  {
    var lead := leads[k];
    var todo := Eligible(leads[..k], need, driver);
    assert leads[..k + 1][..k] == leads[..k];
    assert Eligible(leads[..k + 1], need, driver) == todo + [lead];
    AdmittedSends(driver, need, leads, k, probes, d.probes);
    PublishesStep(driver, adapter, todo, emitted, lead, d.outcome.value);
  }

  /** What `Handle` promises when the walk stopped at `stop` with result `r`, clause by clause:
      - `stop` is a position in the batch, and no lead before it aborted;
      - something was thrown iff the walk stopped early, and then the lead at `stop` aborted;
      - the thrown value is the gate's throwable when the gate raised, and otherwise the first
        throwable of that lead's attempt (the `\Error` that escaped it);
      - the events are exactly those of the leads admitted before `stop`, in order;
      - the payloads sent are those leads' bodies, followed by the aborting lead's body when the
        gate had admitted it;
      - when nothing was thrown, the events are those of every admitted lead of the batch. */
  predicate Ends(driver: string, need: Gate, adapter: Adapter, leads: seq<Lead>, r: Handled, stop: int) {
    && 0 <= stop <= |leads|
    && (forall k :: 0 <= k < stop ==> !Aborts(driver, need, adapter, leads[k], Bodies(Eligible(leads[..k], need, driver))))
    && (r.thrown.Some? <==> stop < |leads|)
    && (stop < |leads| ==> Aborts(driver, need, adapter, leads[stop], Bodies(Eligible(leads[..stop], need, driver))))
    && (stop < |leads| && need(leads[stop], driver).Raised? ==> r.thrown == Some(need(leads[stop], driver).error))
    && (stop < |leads| && need(leads[stop], driver).Returned? ==>
          r.thrown == Some(FirstRaise(adapter(Bodies(Eligible(leads[..stop], need, driver)), leads[stop].body))))
    && Publishes(driver, adapter, Eligible(leads[..stop], need, driver), r.emitted)
    && Sends(r.probes) == Bodies(Eligible(leads[..stop], need, driver))
         + (if stop < |leads| && need(leads[stop], driver) == Returned(true) then [leads[stop].body] else [])
    && (r.thrown.None? ==> Publishes(driver, adapter, Eligible(leads, need, driver), r.emitted))
  }

  /** The gate raised on the lead at `k`: the walk stops there with what it has so far. */
  lemma GateRaisedExit(driver: string, need: Gate, adapter: Adapter, leads: seq<Lead>, k: int,
                       probes: seq<Probe>, emitted: seq<RequestResponse>)
    requires Progress(driver, need, adapter, leads, k, probes, emitted)
    requires k < |leads| && need(leads[k], driver).Raised?
    ensures Ends(driver, need, adapter, leads, Handled(probes, emitted, Some(need(leads[k], driver).error)), k)
  {
    assert Sends(probes) + [] == Sends(probes);
  }

  /** The lead at `k` is admitted and its attempt lets an `\Error` escape: the walk stops there,
      having sent the bodies of the leads admitted so far and then this lead's body. */
  lemma EscapedExit(driver: string, need: Gate, adapter: Adapter, leads: seq<Lead>, k: int,
                    probes: seq<Probe>, emitted: seq<RequestResponse>, d: Delivery)
    requires Progress(driver, need, adapter, leads, k, probes, emitted)
    requires k < |leads| && need(leads[k], driver) == Returned(true)
    requires d == Deliver(leads[k].body, adapter(Sends(probes), leads[k].body)) && d.outcome.Raised?
    ensures Ends(driver, need, adapter, leads, Handled(probes + d.probes, emitted, Some(d.outcome.error)), k)
  {
    SendsAppend(probes, d.probes);
  }

  /** Every lead was handled without a throwable escaping. */
  lemma CompletedExit(driver: string, need: Gate, adapter: Adapter, leads: seq<Lead>,
                      probes: seq<Probe>, emitted: seq<RequestResponse>)
    requires Progress(driver, need, adapter, leads, |leads|, probes, emitted)
    ensures Ends(driver, need, adapter, leads, Handled(probes, emitted, None), |leads|)
  {
    assert leads[..|leads|] == leads;
  }

  /** Walks the batch in order. A lead the gate refuses gets no `sendLead` call and no event;
      every admitted lead gets exactly one event, classified like the single-lead listener, and
      an exception it raises only turns its status into `retry`. The walk stops at `stop`, the
      first lead whose gate raises or whose attempt lets an `\Error` escape; `stop == |leads|`
      when the whole batch was handled. `Ends` spells the contract out. */
  method Handle(driver: string, need: Gate, adapter: Adapter, leads: seq<Lead>) returns (r: Handled, stop: nat)
    ensures Ends(driver, need, adapter, leads, r, stop)
  {
    var probes: seq<Probe> := [];
    var emitted: seq<RequestResponse> := [];
    var k := 0;
    while k < |leads|
      invariant Progress(driver, need, adapter, leads, k, probes, emitted)
    {
      var probes', emitted', thrown := HandleLead(driver, need, adapter, leads, k, probes, emitted);
      if thrown.Some? {
        return Handled(probes', emitted', thrown), k;
      }
      probes, emitted, k := probes', emitted', k + 1;
    }
    CompletedExit(driver, need, adapter, leads, probes, emitted);
    r := Handled(probes, emitted, None);
    stop := |leads|;
  }

  /** One iteration of the walk: the lead at `k`, after the first `k` leads were handled. Either
      the walk goes on past it, or it stops there with the throwable that escaped. */
  method HandleLead(driver: string, need: Gate, adapter: Adapter, leads: seq<Lead>, k: int,
                    probes: seq<Probe>, emitted: seq<RequestResponse>)
    returns (probes': seq<Probe>, emitted': seq<RequestResponse>, thrown: Option<Throwable>)
    requires Progress(driver, need, adapter, leads, k, probes, emitted) && k < |leads|
    ensures thrown.None? ==> Progress(driver, need, adapter, leads, k + 1, probes', emitted')
    ensures thrown.Some? ==> Ends(driver, need, adapter, leads, Handled(probes', emitted', thrown), k)
  {
    var lead := leads[k];
    var admit := need(lead, driver);
    if admit.Raised? {
      GateRaisedExit(driver, need, adapter, leads, k, probes, emitted);
      return probes, emitted, Some(admit.error);
    }
    if !admit.value {
      RefusedStep(driver, need, adapter, leads, k, probes, emitted);
      return probes, emitted, None;
    }
    var d := Deliver(lead.body, adapter(Sends(probes), lead.body));
    if d.outcome.Raised? {
      EscapedExit(driver, need, adapter, leads, k, probes, emitted, d);
      return probes + d.probes, emitted, Some(d.outcome.error);
    }
    AdmittedStep(driver, need, adapter, leads, k, probes, emitted, d);
    return probes + d.probes, emitted + [Respond(driver, lead.id, d.outcome.value)], None;
  }

  /** Per-lead classification in a batch is the single-lead listener's: when no `\Error` escapes,
      a batch whose only eligible lead is `lead` publishes exactly the event `NewLeadListener`
      publishes for it. */
  lemma SingleEligibleMatchesListener(driver: string, adapter: Adapter, lead: Lead, emitted: seq<RequestResponse>)
    requires Publishes(driver, adapter, [lead], emitted)
    requires !Escapes(adapter([], lead.body))
    ensures emitted == NewLeadListener.Handle(driver, adapter, NewLead(lead.id, lead.body)).emitted
  {
    var single := NewLeadListener.Handle(driver, adapter, NewLead(lead.id, lead.body));
    var e, s := emitted[0], single.emitted[0];
    assert [lead][..0] == [];
    assert Bodies([]) == [];
    ClassificationIsFunctional(adapter([], lead.body), e.status, e.response.text, s.status, s.response.text);
    assert e == s;
  }

  /** Failure isolation among `\Exception`s: when neither of two adapters lets an `\Error` escape,
      so that both walks publish an event for every admitted lead, the events sit at the same
      positions and carry the same lead ids, whatever `\Exception`s either adapter raised. An
      escaping `\Error` ends the walk early and is not covered here (see `Handle`). */
  lemma OutcomesDoNotShiftEvents(driver: string, need: Gate, a1: Adapter, a2: Adapter, leads: seq<Lead>,
                                 e1: seq<RequestResponse>, e2: seq<RequestResponse>, i: int)
    requires Publishes(driver, a1, Eligible(leads, need, driver), e1)
    requires Publishes(driver, a2, Eligible(leads, need, driver), e2)
    requires 0 <= i < |e1|
    ensures |e1| == |e2| == |Eligible(leads, need, driver)|
    ensures e1[i].id == e2[i].id == Eligible(leads, need, driver)[i].id
  {
  }
}

=== FILE: pagination.dfy ===
/** The pagination headers of a list response. */
module Pagination {
  import opened Wrappers

  /** Default page size when the caller gives none. */
  const ListLimit := 10

  const HeaderTotal := "x-pagination-total"
  const HeaderLimit := "x-pagination-limit"
  const HeaderPages := "x-pagination-pages"
  const HeaderPage := "x-pagination-page"

  /** `floor(a / b)` for a positive divisor (Dafny's `/` rounds down when `b > 0`). */
  function FloorDiv(a: int, b: int): (q: int)
    requires b > 0
    ensures q * b <= a < (q + 1) * b
  {
    DivBounds(a, b);
    a / b
  }

  /** `ceil(a / b)` for a positive divisor. */
  function CeilDiv(a: int, b: int): (q: int)
    requires b > 0
    ensures (q - 1) * b < a <= q * b
  {
    DivBounds(-a, b);
    -((-a) / b)
  }

  lemma DivBounds(a: int, b: int)
    requires b > 0
    ensures (a / b) * b <= a < (a / b + 1) * b
  {
    assert a == b * (a / b) + a % b;
    assert (a / b + 1) * b == (a / b) * b + b;
  }

  /** The headers of `listResponse(data, cnt, limit, offset)`; `count` is the size of `data`.
      With a total and a positive page size the four headers give the page size (10 when
      none is given), the total, the number of pages needed to hold the total, and the
      page that holds row `offset` (0 when no offset is given); otherwise there are none. */
  function ListHeaders(count: nat, cnt: Option<int>, limit: Option<int>, offset: Option<int>): (h: map<string, int>)
    ensures var lim := if limit.None? then ListLimit else limit.value;
      && (h == map[] <==> cnt.None? || lim <= 0)
      && (h != map[] ==>
          && h.Keys == {HeaderLimit, HeaderTotal, HeaderPages, HeaderPage}
          && h[HeaderLimit] == lim
          && h[HeaderTotal] == cnt.value
          && (h[HeaderPages] - 1) * lim < cnt.value <= h[HeaderPages] * lim
          && var off := if offset.None? then 0 else offset.value;
             h[HeaderPage] * lim <= off < (h[HeaderPage] + 1) * lim)
  {
    var lim := if limit.None? then ListLimit else limit.value;
    var qty := if cnt.None? then count else cnt.value;
    if cnt.Some? && lim > 0 then
      var off := if offset.None? then 0 else offset.value;
      map[HeaderLimit := lim, HeaderTotal := qty, HeaderPages := CeilDiv(qty, lim),
          HeaderPage := FloorDiv(off, if lim > 1 then lim else 1)]
    else
      map[]
  }

  lemma MulMono(x: int, y: int, b: int)
    requires x <= y && b > 0
    ensures x * b <= y * b
  {
    assert y * b - x * b == (y - x) * b;
  }

  /** Only one quotient fits between consecutive multiples of `b`. */
  lemma QuotientUnique(a: int, b: int, q: int, r: int)
    requires b > 0
    requires q * b <= a < (q + 1) * b
    requires r * b <= a < (r + 1) * b
    ensures q == r
  {
    if q < r {
      MulMono(q + 1, r, b);
    } else if r < q {
      MulMono(r + 1, q, b);
    }
  }

  /** Page count and page index are the ones a caller expects: `n` full pages of `lim` rows
      report `n` pages, and the first row of page `p` reports page `p`. */
  lemma ExactPages(count: nat, lim: int, n: int, p: int)
    requires lim > 0
    ensures ListHeaders(count, Some(n * lim), Some(lim), Some(p * lim))[HeaderPages] == n
    ensures ListHeaders(count, Some(n * lim), Some(lim), Some(p * lim))[HeaderPage] == p
  {
    var h := ListHeaders(count, Some(n * lim), Some(lim), Some(p * lim));
    assert (n - 1) * lim == n * lim - lim;
    assert (n + 1) * lim == n * lim + lim;
    assert (p + 1) * lim == p * lim + lim;
    QuotientUnique(n * lim - 1, lim, h[HeaderPages] - 1, n - 1);
    QuotientUnique(p * lim, lim, h[HeaderPage], p);
  }
}

=== FILE: partner_box.dfy ===
/** The control logic of the PartnerBox (affiliate tracking) integration service. Every call
    into the tracking library is an oracle: each operation receives the library's answers
    for the calls it may make, and reports the calls it did make. */
module PartnerBox {
  import opened Wrappers
  import opened Php

  /** Class of the exception thrown when the library refuses the login. */
  const WrongCredentialsKind := "WrongCredentialsException"

  /** The exception thrown when the library refuses the login. The exception class's own
      message is not part of this model, so only its class is promised. */
  const WrongCredentials := Exception(WrongCredentialsKind, "")

  /** Most `data` values an event can carry: `setData1` .. `setData5`. */
  const MaxDataSlots := 5

  datatype Config = Config(
    serverUrl: string, saleUrl: string, login: string, password: string,
    visitorId: Option<string>, accountId: Option<string>)

  /** A library session opened against the server URL. */
  datatype Session = Session(serverUrl: string)

  /** A click tracker; `visitorId` is `None` when `setVisitorId` was not called on it. */
  datatype ClickTracker = ClickTracker(session: Session, accountId: Option<string>, visitorId: Option<string>)

  /** A sale tracker; `setVisitorId` is always called on it, with the configured value. */
  datatype SaleTracker = SaleTracker(saleUrl: string, accountId: Option<string>, visitorId: Option<string>)

  /** The service: its configuration and the lazily built, memoised library objects. */
  datatype Service = Service(
    config: Config, session: Option<Session>,
    clickTracker: Option<ClickTracker>, saleTracker: Option<SaleTracker>)

  /** A call into the tracking library that the model records. */
  datatype LibCall =
    | Login(user: string, password: string)
    | Track
    | SaveCookies
    | QueryTransactions(session: Option<Session>, orderId: string)
    | LoadTransaction(session: Option<Session>, transId: string)
    | SetStatus(status: string)
    | SaveTransaction

  /** The service after an operation, what the operation answered and the calls it made. */
  datatype Step<T> = Step(service: Service, result: Answer<T>, calls: seq<LibCall>)

  /** `createSession`: built once. The session is stored BEFORE the login, so after a refused
      login the next call returns the stored session without logging in again. */
  function CreateSession(svc: Service, login: Answer<bool>): (r: Step<Session>)
    ensures svc.session.Some? ==> r == Step(svc, Returned(svc.session.value), [])
    ensures svc.session.None? ==>
      && r.service == svc.(session := Some(Session(svc.config.serverUrl)))
      && r.calls == [Login(svc.config.login, svc.config.password)]
      && (r.result.Returned? <==> login == Returned(true))
      && (login == Returned(false) ==> r.result.Raised? && r.result.error.Exception? && r.result.error.kind == WrongCredentialsKind)
      && (login.Raised? ==> r.result == login.PropagateFailure())
    ensures r.result.Returned? ==> r.service.session == Some(r.result.value)
  {
    if svc.session.Some? then
      Step(svc, Returned(svc.session.value), [])
    else
      var session := Session(svc.config.serverUrl);
      var svc' := svc.(session := Some(session));
      var calls := [Login(svc.config.login, svc.config.password)];
      match login
      case Raised(e) => Step(svc', Raised(e), calls)
      case Returned(ok) => Step(svc', if ok then Returned(session) else Raised(WrongCredentials), calls)
  }

  /** After a refused login, the next `createSession` hands out the stored, unauthenticated
      session and makes no library call, whatever the library would answer. */
  lemma FailedLoginIsNotRetried(svc: Service, first: Answer<bool>, second: Answer<bool>)
    requires svc.session.None? && first != Returned(true)
    ensures CreateSession(svc, first).result.Raised?
    ensures CreateSession(CreateSession(svc, first).service, second)
         == Step(CreateSession(svc, first).service, Returned(Session(svc.config.serverUrl)), [])
  {
  }

  /** The visitor id given to a new click tracker: only a non-empty one is set. */
  function ClickVisitor(cfg: Config): Option<string> {
    if Blank(cfg.visitorId) then None else cfg.visitorId
  }

  /** `createClickTracker`: built once, on the session; a session failure leaves no tracker. */
  function CreateClickTracker(svc: Service, login: Answer<bool>): (r: Step<ClickTracker>)
    ensures svc.clickTracker.Some? ==> r == Step(svc, Returned(svc.clickTracker.value), [])
    ensures svc.clickTracker.None? ==>
      && r.result.IsFailure() == CreateSession(svc, login).result.IsFailure()
      && r.calls == CreateSession(svc, login).calls
      && r.service.session == CreateSession(svc, login).service.session
      && (r.result.Raised? ==> r.service.clickTracker.None? && r.result == CreateSession(svc, login).result.PropagateFailure())
      && (r.result.Returned? ==>
            && r.service.clickTracker == Some(r.result.value)
            && r.result.value.session == CreateSession(svc, login).result.value
            && r.result.value.accountId == svc.config.accountId
            && (r.result.value.visitorId.Some? <==> !Blank(svc.config.visitorId))
            && (r.result.value.visitorId.Some? ==> r.result.value.visitorId == svc.config.visitorId))
    ensures r.service.config == svc.config && r.service.saleTracker == svc.saleTracker
  {
    if svc.clickTracker.Some? then
      Step(svc, Returned(svc.clickTracker.value), [])
    else
      var s := CreateSession(svc, login);
      match s.result
      case Raised(e) => Step(s.service, Raised(e), s.calls)
      case Returned(session) =>
        var tracker := ClickTracker(session, svc.config.accountId, ClickVisitor(svc.config));
        Step(s.service.(clickTracker := Some(tracker)), Returned(tracker), s.calls)
  }

  /** `createSaleTracker`: built once, without a session; the visitor id is always set,
      even when it is empty. */
  function CreateSaleTracker(svc: Service): (r: Step<SaleTracker>)
    ensures r.calls == [] && r.result.Returned?
    ensures svc.saleTracker.Some? ==> r.service == svc && r.result.value == svc.saleTracker.value
    ensures svc.saleTracker.None? ==>
      && r.result.value == SaleTracker(svc.config.saleUrl, svc.config.accountId, svc.config.visitorId)
      && r.service == svc.(saleTracker := Some(r.result.value))
  {
    if svc.saleTracker.Some? then
      Step(svc, Returned(svc.saleTracker.value), [])
    else
      var tracker := SaleTracker(svc.config.saleUrl, svc.config.accountId, svc.config.visitorId);
      Step(svc.(saleTracker := Some(tracker)), Returned(tracker), [])
  }

  /** The sale tracker is built once: a second `createSaleTracker` returns the same tracker and
      changes nothing. */
  lemma SaleTrackerBuiltOnce(svc: Service)
    ensures var first := CreateSaleTracker(svc);
      CreateSaleTracker(first.service) == Step(first.service, first.result, [])
  {
  }

  /** An empty visitor id reaches the sale tracker but not a new click tracker. */
  lemma EmptyVisitorOnlyOnSales(svc: Service, login: Answer<bool>)
    requires svc.clickTracker.None? && svc.saleTracker.None? && Blank(svc.config.visitorId)
    ensures CreateClickTracker(svc, login).result.Returned? ==> CreateClickTracker(svc, login).result.value.visitorId.None?
    ensures CreateSaleTracker(svc).result.value.visitorId == svc.config.visitorId
  {
  }

  /** `catch (\Exception $e) { return false; }`: an exception becomes false, an `\Error` escapes. */
  function CatchAsFalse(e: Throwable): (r: Answer<bool>)
    ensures r.Returned? <==> e.Exception?
    ensures r.Returned? ==> !r.value
    ensures r.Raised? ==> r.error == e
  {
    if e.Exception? then Returned(false) else Raised(e)
  }

  /** The service after `track()`, what it returned and the library calls it made. */
  datatype Tracked = Tracked(service: Service, result: Answer<bool>, calls: seq<LibCall>)

  /** `track`: true only when the tracker was obtained and both `track()` and `saveCookies()`
      returned. Any exception on the way, a refused login included, yields false; only a PHP
      `\Error`, which the `catch (\Exception)` does not catch, escapes. */
  function TrackVisit(svc: Service, login: Answer<bool>, track: Answer<()>, save: Answer<()>): (r: Tracked)
    ensures var t := CreateClickTracker(svc, login);
      && (r.result == Returned(true) <==> t.result.Returned? && track.Returned? && save.Returned?)
      && (r.result.Raised? <==>
            || (t.result.Raised? && t.result.error.Error?)
            || (t.result.Returned? && track.Raised? && track.error.Error?)
            || (t.result.Returned? && track.Returned? && save.Raised? && save.error.Error?))
      && (r.result.Raised? ==>
            r.result.error == if t.result.Raised? then t.result.error else if track.Raised? then track.error else save.error)
      && r.service == t.service
      && (Track in r.calls <==> t.result.Returned?)
      && (SaveCookies in r.calls <==> t.result.Returned? && track.Returned?)
  {
    var t := CreateClickTracker(svc, login);
    if t.result.Raised? then
      Tracked(t.service, CatchAsFalse(t.result.error), t.calls)
    else if track.Raised? then
      Tracked(t.service, CatchAsFalse(track.error), t.calls + [Track])
    else if save.Raised? then
      Tracked(t.service, CatchAsFalse(save.error), t.calls + [Track, SaveCookies])
    else
      Tracked(t.service, Returned(true), t.calls + [Track, SaveCookies])
  }

  /** A `track()` whose login is refused returns false and still leaves the session behind, so
      the next `track()` builds its click tracker on that session without logging in. */
  lemma TrackAfterRefusedLogin(svc: Service, login: Answer<bool>, again: Answer<bool>, track: Answer<()>, save: Answer<()>)
    requires svc.session.None? && svc.clickTracker.None? && login == Returned(false)
    ensures TrackVisit(svc, login, track, save).result == Returned(false)
    ensures var next := TrackVisit(TrackVisit(svc, login, track, save).service, again, track, save);
      && Login(svc.config.login, svc.config.password) !in next.calls
      && (next.result == Returned(true) <==> track.Returned? && save.Returned?)
  {
    var first := TrackVisit(svc, login, track, save);
    var s := first.service;
    assert s.session == Some(Session(svc.config.serverUrl));
    assert s.clickTracker.None?;
    assert CreateSession(s, again).calls == [];
  }

  /** A `setDataK(value)` call on a sale action. */
  datatype DataSlot = DataSlot(index: nat, value: string)

  /** The sale action registered by `sendEvent`. */
  datatype SaleAction = SaleAction(eventName: string, productId: string, orderId: string, slots: seq<DataSlot>)

  /** `sendEvent`: the first `min(5, |data|)` extra values go to `setData1`, `setData2`, ... in
      order and the rest are ignored; then the action is registered and the tracker's response
      returned. An exception from `register()` propagates. */
  method SendEvent(svc: Service, eventName: string, productId: string, orderId: string, data: seq<string>,
                   register: Answer<()>, response: Answer<string>)
    returns (svc': Service, action: SaleAction, result: Answer<string>)
    ensures svc' == CreateSaleTracker(svc).service
    ensures action.eventName == eventName && action.productId == productId && action.orderId == orderId
    ensures |action.slots| == if |data| < MaxDataSlots then |data| else MaxDataSlots
    ensures forall k :: 0 <= k < |action.slots| ==> action.slots[k] == DataSlot(k + 1, data[k])
    ensures result == if register.Raised? then Raised(register.error) else response
  {
    var tracker := CreateSaleTracker(svc);
    svc' := tracker.service;
    var count := if |data| < MaxDataSlots then |data| else MaxDataSlots;
    var slots: seq<DataSlot> := [];
    var i := 0;
    while i < count
      invariant 0 <= i <= count
      invariant |slots| == i
      invariant forall k :: 0 <= k < i ==> slots[k] == DataSlot(k + 1, data[k])
    {
      slots := slots + [DataSlot(i + 1, data[i])];
      i := i + 1;
    }
    action := SaleAction(eventName, productId, orderId, slots);
    if register.Raised? {
      result := Raised(register.error);
    } else {
      result := response;
    }
  }

  /** `setTransactionStatus`: looks the order up with the stored session (never creating one),
      then loads, re-statuses and saves the first transaction found. True only when all three
      succeed; a missing record, a false answer or an exception inside the `try` gives false.
      The grid query sits outside the `try`, so anything it raises propagates, and so does a PHP
      `\Error` from `load()` or `save()`. `query` answers with the first record's transaction id,
      or `None` when the order has no transaction. */
  function SetTransactionStatus(svc: Service, orderId: string, status: string,
                                query: Answer<Option<string>>, load: Answer<bool>, save: Answer<bool>): (r: Step<bool>)
    ensures r.service == svc
    ensures var found := query.Returned? && query.value.Some?;
      && (r.result.Raised? <==>
            || query.Raised?
            || (found && load.Raised? && load.error.Error?)
            || (found && load == Returned(true) && save.Raised? && save.error.Error?))
      && (r.result.Raised? ==>
            r.result.error == if query.Raised? then query.error else if load.Raised? then load.error else save.error)
      && (r.result == Returned(true) <==> found && load == Returned(true) && save == Returned(true))
      && (SetStatus(status) in r.calls <==> found && load == Returned(true))
    ensures |r.calls| > 0 && r.calls[0] == QueryTransactions(svc.session, orderId)
  {
    var calls := [QueryTransactions(svc.session, orderId)];
    match query
    case Raised(e) => Step(svc, Raised(e), calls)
    case Returned(None) => Step(svc, Returned(false), calls)
    case Returned(Some(transId)) =>
      var loading := calls + [LoadTransaction(svc.session, transId)];
      match load
      case Raised(e) => Step(svc, CatchAsFalse(e), loading)
      case Returned(false) => Step(svc, Returned(false), loading)
      case Returned(true) =>
        var saving := loading + [SetStatus(status), SaveTransaction];
        match save
        case Raised(e) => Step(svc, CatchAsFalse(e), saving)
        case Returned(saved) => Step(svc, Returned(saved), saving)
  }
}

=== FILE: php.dfy ===
/** PHP's notion of an "empty" value, as the gate and the tracking service test it. */
module Php {
  import opened Wrappers

  /** PHP `empty()` on a request parameter or an identifier: `null`, `""` and `"0"` are empty. */
  predicate Blank(v: Option<string>) {
    v.None? || v.value == "" || v.value == "0"
  }
}

=== FILE: request_response_listener.dfy ===
/** The consumer of `RequestResponse` events: it forwards each outcome to the request
    repository's `setStatus`. */
module RequestResponseListener {
  import opened Leads

  /** A call `setStatus(id, status, message, system)` on the request repository. */
  datatype SetStatusCall = SetStatusCall(id: LeadId, status: Status, message: string, system: string)

  /** `json_encode`, as an opaque deterministic encoder. */
  type Encoder = Response -> string

  /** One `setStatus` call per event: id, status and system pass through unchanged, and the
      message is always the encoded response, text included. */
  function Handle(encode: Encoder, event: RequestResponse): (c: SetStatusCall)
    ensures c.id == event.id && c.status == event.status && c.system == event.system
    ensures c.message == encode(event.response)
  {
    SetStatusCall(event.id, event.status, encode(event.response), event.system)
  }

  /** The `setStatus` calls made while handling a sequence of events, in order. */
  function HandleAll(encode: Encoder, events: seq<RequestResponse>): (calls: seq<SetStatusCall>)
    ensures |calls| == |events|
    ensures forall i :: 0 <= i < |events| ==> calls[i] == Handle(encode, events[i])
  {
    if |events| == 0 then [] else HandleAll(encode, events[..|events| - 1]) + [Handle(encode, events[|events| - 1])]
  }

  // The persisted request rows. The repository behind `setStatus` is not part of this
  // model; the store below states the behaviour it is ASSUMED to have: one row per
  // (lead id, driver) key, overwritten by each call for that key.

  type Key = (LeadId, string)

  datatype Row = Row(status: Status, message: string, system: string)

  type Store = map<Key, Row>

  function KeyOf(c: SetStatusCall): Key {
    (c.id, c.system)
  }

  /** Assumed repository semantics of `setStatus`: upsert of the row keyed by (id, system). */
  function SetStatus(store: Store, c: SetStatusCall): Store {
    store[KeyOf(c) := Row(c.status, c.message, c.system)]
  }

  /** The store after handling `events` in order, starting from `store`. */
  function Replay(store: Store, encode: Encoder, events: seq<RequestResponse>): Store {
    if |events| == 0 then store
    else SetStatus(Replay(store, encode, events[..|events| - 1]), Handle(encode, events[|events| - 1]))
  }

  /** Event `i` is the last one for `key`. */
  predicate IsLastFor(events: seq<RequestResponse>, key: Key, i: int) {
    && 0 <= i < |events|
    && (events[i].id, events[i].system) == key
    && forall j :: i < j < |events| ==> (events[j].id, events[j].system) != key
  }

  /** Under the assumed upsert, the row of a key is written by the last event for that key:
      its status, its encoded response and its system. */
  lemma {:induction false} LastWriteWins(store: Store, encode: Encoder, events: seq<RequestResponse>, key: Key, i: int)
    requires IsLastFor(events, key, i)
    ensures key in Replay(store, encode, events)
    ensures Replay(store, encode, events)[key] == Row(events[i].status, encode(events[i].response), events[i].system)
  {
    var n := |events|;
    var init := events[..n - 1];
    if i < n - 1 {
      assert IsLastFor(init, key, i);
      LastWriteWins(store, encode, init, key, i);
    }
  }

  /** Keys no event mentions keep their row, or stay absent (`pending`). */
  lemma {:induction false} UntouchedKeys(store: Store, encode: Encoder, events: seq<RequestResponse>, key: Key)
    requires forall j :: 0 <= j < |events| ==> (events[j].id, events[j].system) != key
    ensures key in Replay(store, encode, events) <==> key in store
    ensures key in store ==> Replay(store, encode, events)[key] == store[key]
  {
    if |events| > 0 {
      UntouchedKeys(store, encode, events[..|events| - 1], key);
    }
  }

  /** Status of a request as read back from the store; a missing row is `pending`. */
  datatype Stored = Pending | Recorded(status: Status)

  function StatusOf(store: Store, id: LeadId, system: string): Stored {
    if (id, system) in store then Recorded(store[(id, system)].status) else Pending
  }

  /** Two responses for the same key, `retry` then `success`, leave the request `success`. */
  lemma RetryThenSuccess(encode: Encoder, id: LeadId, system: string, m1: Response, m2: Response)
    ensures StatusOf(Replay(map[], encode, [RequestResponse(id, m1, system, Retry), RequestResponse(id, m2, system, Success)]), id, system)
         == Recorded(Success)
  {
    var events := [RequestResponse(id, m1, system, Retry), RequestResponse(id, m2, system, Success)];
    LastWriteWins(map[], encode, events, (id, system), 1);
  }
}

=== FILE: wrappers.dfy ===
/** Small value types shared by every module of the model: optional values, PHP throwables
    and the outcome of a call that may raise. */
module Wrappers {

  /** A PHP value that may be `null`. */
  datatype Option<+T> = None | Some(value: T)

  /** A raised PHP throwable: its class name and its `getMessage()` text. A `catch (\Exception)`
      catches the first kind only; an `\Error` (a `TypeError`, say) passes through it. */
  datatype Throwable = Exception(kind: string, message: string) | Error(kind: string, message: string)

  /** What a call into code outside the model did: it raised, or it returned a value.
      Failure-compatible, so `var x :- call;` propagates the throwable as PHP does. */
  datatype Answer<+T> = Raised(error: Throwable) | Returned(value: T) {

    predicate IsFailure() {
      Raised?
    }

    function PropagateFailure<U>(): Answer<U>
      requires Raised?
    {
      Raised(error)
    }

    function Extract(): T
      requires Returned?
    {
      value
    }
  }
}
